=== FILE: README.md ===
# DAO governance canisters — a Dafny model

This project models the governance core of a member-funded DAO running as Internet Computer canisters.

Members contribute funds and receive the same number of voting shares. They can redeem shares against available funds or transfer them to another member. A member can propose paying part of the treasury to a recipient. Members vote once per proposal, with weight equal to their current shares. After the voting deadline the administrator executes the proposal: it pays out if the votes reach the quorum percentage of all shares, and otherwise returns the funds to the available bucket.

Three source files are modelled:

- `src/daoCanister/index.ts`, the canonical DAO canister: modules `Dao` (state, transitions, queries), `DaoLemmas` (properties of single calls and short call sequences) and `DaoMachine` (the canister as a state machine, with invariants over every reachable state).
- `src/index.ts`, an older version of the same canister: module `LegacyDao`.
- `src/tokenCanister/index.ts`, a small token ledger the DAO uses on a local network: module `TokenLedger`.

Shared pieces:

- `Results`: the `Ok`/`Err` result type. A trap and an explicit `Result.Err` are both modelled as `Err`, with the state unchanged.
- `MapSum`: the sum of the values of a finite map.
- `ShareLedger`: credit, debit and transfer on the share map, used by both DAO variants.

Each transition is a pure function from a state to `Result<State, Error>`. It takes the calling principal `caller` and the host time `now` as parameters. Where a call awaits another canister before writing, a boolean `paid` says whether that awaited call returned without trapping. In `joinDAO`, `redeemShares` and `executeProposal` all writes come after the await, so a failed call changes nothing. The canonical `init` writes its configuration and then, on the local network, awaits the token canister's `initializeSupply` (src/daoCanister/index.ts:46-66). `init` commits its writes at that await and ignores the call's result, so it succeeds on that branch too; `Dao.Init` covers both branches.

The treasury counters (`totalShares`, `availableFunds`, `lockedFunds`) are JavaScript BigInts in the source. In the canonical canister `nextProposalId` is an `int32`, a plain JavaScript number starting at 0 and incremented by 1 (src/daoCanister/index.ts:23, 50, 303); only src/index.ts:71 makes it a BigInt. All four are `int` here. That `availableFunds` and `lockedFunds` never go negative, and that together they never exceed `totalShares`, is proved for every reachable state, not assumed.

## Intended behaviour versus the code (the model follows the code)

- Quorum test. A proposal is meant to pass when `votes * 100 >= totalShares * quorum`. The code computes `votes * 100 / totalShares >= quorum` with truncating BigInt division. The contract of `Dao.MeetsQuorum` proves the two agree whenever `totalShares > 0`. When `totalShares == 0` the division throws, and execution fails (`Dao.DivisionByZero`).
- Failed payout. A failed payout is meant to release the locked funds. In the code a payout that traps changes nothing, and the proposal stays open and can be executed again. A payout the ledger refuses without trapping goes unnoticed (src/daoCanister/index.ts:407): the proposal closes as executed and `lockedFunds` drops although nothing was paid. This happens when the canister's balance exceeds `amount` but not `amount` plus the fee.
- Zero-share entries. A share entry is meant to exist only while its balance is positive. In the code, a zero-amount transfer to a new principal creates an entry holding 0 (`ShareLedger.ZeroTransferCreatesEntry`). Such an entry counts as membership for creating proposals and voting.
- Self-transfers. A transfer is meant to be a debit followed by a credit. The code reads the recipient's balance before the debit, so a self-transfer creates shares (see Findings). The same code appears in `src/index.ts:186-210`.
- Closed proposals. A closed proposal is meant to accept no votes. The code checks only `now > ends`. At the instant `now == ends` a proposal can be executed and then still receive votes (`DaoLemmas.VoteAfterExecutionAtBoundary`).
- Unknown proposal. `executeProposal` on an unknown id returns the plain error `"Error"`, modelled as `ProposalNotFound`.

## Model

| member | source | states |
|---|---|---|
| Dao.InitialState | src/daoCanister/index.ts:13-28 | before `init` the canister is not initialized, stores no shares, proposals or votes, and every counter is 0 |
| Dao.Init | src/daoCanister/index.ts:35-69 | fails iff already initialized or quorum above 100, with that error; on success it records the caller as admin, the quorum, the vote time and the deadline `now + contributionTime`, zeroes every counter and leaves the stored maps alone |
| Dao.JoinDAO | src/daoCanister/index.ts:95-142 | succeeds iff initialized, `now <= contributionEnds`, `amount > 0` and the deposit returned; the caller's balance, the balance sum, `totalShares` and `availableFunds` each grow by exactly `amount`, and nothing else changes |
| Dao.GetShares | src/daoCanister/index.ts:145-163 | fails only before init; returns the balance of the given address, or of the caller for an empty address, and 0 for a principal without an entry |
| Dao.RedeemShares | src/daoCanister/index.ts:167-218 | fails iff not initialized, `availableFunds < amount`, the caller has no entry, has fewer than `amount` shares, or the payout trapped, with the first such error; on success balance, balance sum, `totalShares` and `availableFunds` each drop by `amount`, and the entry disappears exactly when it reaches 0 |
| Dao.TransferShares | src/daoCanister/index.ts:223-262 | fails iff the caller has no entry or too few shares; between distinct principals it debits the caller, credits `to`, keeps the balance sum and `totalShares`, removes the sender's entry at zero and touches no other entry |
| Dao.TransferSharesCorrected | src/daoCanister/index.ts:233-259 | same checks as the written transfer; always conserves the balance sum, is a no-op for a self-transfer and agrees with the written transfer otherwise |
| Dao.CreateProposal | src/daoCanister/index.ts:266-306 | fails iff not initialized, `availableFunds < amount` or the caller has no entry; stores an open proposal with id `nextProposalId`, no votes and deadline `now + voteTime`; moves `amount` from available to locked, keeping their sum; increments the id; touches no other proposal |
| Dao.VoteProposal | src/daoCanister/index.ts:311-364 | fails iff not initialized, the caller has no entry, the pair already voted, the proposal is missing or `now > ends`, in that order; on success it adds the caller's shares to the tally and records the pair, and nothing else changes |
| Dao.TruncDiv | src/daoCanister/index.ts:396 | BigInt division truncates toward zero; for a non-negative numerator and a positive divisor the quotient `q` satisfies `q*b <= a < q*b + b` |
| Dao.ExecuteProposal | src/daoCanister/index.ts:369-427 | fails iff not initialized, the caller is not admin, the proposal is missing, `now < ends`, it already ended, `totalShares == 0`, or a passing payout trapped; on success it sets `ended`, sets `executed` to the quorum outcome, lowers `lockedFunds` by the amount in both outcomes and returns the amount to `availableFunds` only on rejection |
| Dao.GetProposal | src/daoCanister/index.ts:436-441 | returns the stored proposal for a known id and `ProposalNotFound` for any other id |
| Dao.GetProposals | src/daoCanister/index.ts:430-432 | every stored proposal with an id in `0 .. nextProposalId-1` is listed, every listed element is a stored proposal, at most `nextProposalId` are listed, and they come in increasing id order when each is stored under its own id |
| ShareLedger.Credit | src/daoCanister/index.ts:127-133 | the entry grows by `amount` or is created with `amount`; other entries are unchanged; the sum grows by `amount` |
| ShareLedger.Debit | src/daoCanister/index.ts:205-210 | the entry drops by `amount` and is deleted exactly when it reaches 0; other entries are unchanged; the sum drops by `amount` |
| ShareLedger.Transfer | src/daoCanister/index.ts:234-259 | the recipient always ends with an entry; between distinct principals the sender drops and the recipient rises by `amount` with the sum kept; a self-transfer leaves the caller with `balance + amount` |
| ShareLedger.TransferCorrected | src/daoCanister/index.ts:234-259 | a debit followed by a credit: conserves the sum for every pair of principals and is the identity on a self-transfer |
| ShareLedger.TransferDistinctConserves | src/daoCanister/index.ts:234-259 | between distinct principals the written transfer equals the corrected one and conserves the sum |
| ShareLedger.SelfTransferInflates | src/daoCanister/index.ts:246-259 | a self-transfer of `amount` raises the caller's balance and the sum of balances by `amount` |
| ShareLedger.ZeroTransferCreatesEntry | src/daoCanister/index.ts:246-259 | a zero-amount transfer to a principal without an entry creates an entry holding 0 |
| ShareLedger.DebitUndoesCredit | src/daoCanister/index.ts:205-210 | debiting what was just credited restores the ledger, unless the entry held 0 |
| ShareLedger.TransferBackRestores | src/daoCanister/index.ts:251-259 | a transfer to another principal followed by the return transfer restores the ledger, unless the recipient held a zero entry |
| Dao.MeetsQuorum | src/daoCanister/index.ts:396 | for `totalShares > 0` the truncating test `votes*100/totalShares >= quorum` holds iff `votes*100 >= quorum*totalShares`, so truncation never changes the outcome against the exact ratio |
| Dao.TruncDivThreshold | src/daoCanister/index.ts:396 | for a positive divisor, the truncated quotient reaches `q` exactly when the numerator reaches `q` times the divisor |
| DaoLemmas.QuorumExtremes | src/daoCanister/index.ts:396 | quorum 0 passes every proposal; quorum 100 passes iff the votes reach `totalShares` |
| DaoLemmas.JoinThenRedeemRestores | src/daoCanister/index.ts:104-215 | joining with `amount` and then redeeming `amount` returns exactly the original state, unless the caller held a zero entry |
| DaoLemmas.TransferThenReturnRestores | src/daoCanister/index.ts:234-259 | transferring to another member and back returns exactly the original state, unless the recipient held a zero entry |
| DaoLemmas.SecondVoteRejected | src/daoCanister/index.ts:328-361 | a successful vote records its pair, and any later vote of the same pair fails with `AlreadyVoted` |
| DaoLemmas.VoteFailsOnlyAfterDeadline | src/daoCanister/index.ts:321-361 | a member's vote on a stored proposal with an unused pair can only fail because the deadline passed |
| DaoLemmas.ExecuteIsOnce | src/daoCanister/index.ts:392-394 | after a successful execution, every later execution of that proposal fails |
| DaoLemmas.ExecuteBeforeDeadlineFails | src/daoCanister/index.ts:388-390 | executing a new proposal before `now + voteTime` fails with `NotYetEnded` |
| DaoLemmas.BoundaryInstantOpenAndExecutable | src/daoCanister/index.ts:343-394 | at `now == ends` the proposal accepts a vote and can also be executed |
| DaoLemmas.VoteAfterExecutionAtBoundary | src/daoCanister/index.ts:343-361 | at `now == ends` an executed proposal still accepts a vote, and the vote raises its tally |
| DaoLemmas.NoExecutionWithoutShares | src/daoCanister/index.ts:396 | with `totalShares == 0` every execution fails |
| DaoLemmas.VotesCanExceedTotalShares | src/daoCanister/index.ts:321-361 | a vote, a transfer of the voted shares and a second vote give a tally above `totalShares` |
| DaoLemmas.SharesObservedAfterJoin | src/daoCanister/index.ts:145-163 | after a join (lines 127-133), `getShares` reports the caller's balance grown by the contribution and every other principal's balance unchanged |
| DaoLemmas.SharesObservedAfterRedeem | src/daoCanister/index.ts:145-163 | after a redemption (lines 205-210), `getShares` reports the caller's balance lowered by the amount and every other principal's balance unchanged |
| DaoLemmas.SharesObservedAfterTransfer | src/daoCanister/index.ts:145-163 | after a transfer (lines 246-259) between distinct principals, `getShares` reports the sender `amount` lower, the recipient `amount` higher and everyone else unchanged |
| DaoLemmas.ProposalObservedAfterCreate | src/daoCanister/index.ts:436-441 | after `createProposal` (lines 285-303), `getProposal` of the previous `nextProposalId` returns the new open proposal with no votes and deadline `now + voteTime`, and every other id reads as before |
| DaoLemmas.ProposalObservedAfterVote | src/daoCanister/index.ts:436-441 | after a vote (lines 350-361), `getProposal` shows the tally raised by the voter's shares with nothing else changed, and every other id reads as before |
| DaoLemmas.ProposalObservedAfterExecute | src/daoCanister/index.ts:436-441 | after an execution (lines 396-421), `getProposal` shows the proposal closed with `executed` equal to the quorum outcome, and every other id reads as before |
| DaoMachine.InitialStateSatisfiesInv | src/daoCanister/index.ts:13-28 | the freshly installed canister satisfies every invariant |
| DaoMachine.InitPreservesInv | src/daoCanister/index.ts:45-57 | a successful `init` keeps the bookkeeping and share invariants |
| DaoMachine.CreatePreservesRegistryInv | src/daoCanister/index.ts:285-303 | creating a proposal keeps `lockedFunds` equal to the amounts of open proposals, ids contiguous and `availableFunds >= 0` |
| DaoMachine.VotePreservesRegistryInv | src/daoCanister/index.ts:343-361 | voting keeps the bookkeeping invariant, and every recorded vote names a stored proposal |
| DaoMachine.ExecutePreservesRegistryInv | src/daoCanister/index.ts:396-421 | executing keeps `lockedFunds` equal to the open amounts, so it never goes negative |
| DaoMachine.NextPreservesRegistryInv | src/daoCanister/index.ts:35-427 | every call of the written canister keeps the treasury and registry bookkeeping |
| DaoMachine.NextCorrectedPreservesInv | src/daoCanister/index.ts:95-427 | with the repaired transfer, every call also keeps `totalShares == Σ balances` |
| DaoMachine.ReachableCorrectedInv | src/daoCanister/index.ts:35-427 | in every state the repaired canister reaches, shares are conserved and both treasury buckets are non-negative |
| DaoMachine.ReachableRegistryInv | src/daoCanister/index.ts:35-427 | in every state the written canister reaches, both buckets are non-negative, `lockedFunds` equals the open proposals' amounts, and `availableFunds + lockedFunds <= totalShares` |
| DaoMachine.SelfTransferBreaksShareInv | src/daoCanister/index.ts:234-259 | from any conserved state, a positive self-transfer makes `totalShares` differ from the balance sum |
| DaoMachine.SelfTransferReachable | src/daoCanister/index.ts:234-259 | init, join 5 and self-transfer 5 reach a state with `totalShares == 5` and the caller holding 10 |
| DaoMachine.HalfQuorumScenario | src/daoCanister/index.ts:95-427 | quorum 50, two members joining with 100 each, a proposal for 50 voted by its author alone: after the deadline the admin's execution passes, 150 stays available, nothing stays locked, and a second execution fails with `AlreadyEnded` |
| DaoMachine.VotesAreKept | src/daoCanister/index.ts:360-361 | no call removes a recorded vote, and a successful vote records a pair that was not recorded before |
| DaoMachine.AtMostOneVote | src/daoCanister/index.ts:331-361 | over any sequence of calls, each (voter, proposal) pair has at most one successful vote |
| DaoMachine.ClosedIsTerminal | src/daoCanister/index.ts:392-421 | no call reopens a closed proposal or changes its outcome or amount |
| DaoMachine.ConfigIsSetOnce | src/daoCanister/index.ts:37-39 | after `init`, no call changes the configuration or clears the initialized flag |
| LegacyDao.InitialState | src/index.ts:67-74 | before `init` no shares are stored; all counters, `nextProposalId`, the contribution deadline, the quorum and the vote time are 0; and the canister itself is admin |
| LegacyDao.InitAsWritten | src/index.ts:80-98 | `init` never succeeds: it fails on a quorum above 100 and otherwise aborts at the final trap |
| LegacyDao.Init | src/index.ts:81-93 | `init` without the final trap: rejects a quorum above 100, stores the given absolute deadline, the caller as admin and zeroed counters |
| LegacyDao.JoinDAO | src/index.ts:102-134 | succeeds iff `now <= contributionEnds`, `amount > 0` and the deposit returned; shares, `totalShares` and `availableFunds` rise by `amount` |
| LegacyDao.RedeemShares | src/index.ts:138-175 | fails on too few available funds, a missing entry or too few shares; otherwise debits shares, `totalShares` and `availableFunds` by `amount` and removes zero entries |
| LegacyDao.TransferShares | src/index.ts:179-213 | fails with no change on a missing entry or too few shares; between distinct parties it keeps the sum and removes the sender's entry at zero |
| LegacyDao.SameTransitionsOnceInitialized | src/index.ts:102-213 | once the canonical canister is initialized, its join, redeem and transfer give the same results as this variant's, errors included |
| LegacyDao.InitTrapClosesContribution | src/index.ts:86-104 | the written `init` fails on every payload, so the install is rejected; even the initial globals would refuse every join at a positive time; after the repaired `init`, joining before the deadline succeeds |
| LegacyDao.ShareSumKept | src/index.ts:102-213 | join, redeem and transfers between distinct parties keep `totalShares == Σ balances` |
| TokenLedger.InitialState | src/tokenCanister/index.ts:4-9 | the token canister starts with no accounts and zero supply |
| TokenLedger.InitializeSupply | src/tokenCanister/index.ts:12-32 | afterwards exactly one account exists, `originalAddress` holding the whole supply; name, ticker and supply are recorded, and the balances sum to the supply |
| TokenLedger.Balance | src/tokenCanister/index.ts:66-68 | the account's balance, 0 for an unknown address |
| TokenLedger.TotalSupply | src/tokenCanister/index.ts:81-83 | in a conserved ledger the recorded supply is the sum of all balances |
| TokenLedger.EnsureAccount | src/tokenCanister/index.ts:40-52 | an absent account is created with balance 0 under its own address; existing accounts are unchanged |
| TokenLedger.OpenAccounts | src/tokenCanister/index.ts:40-52 | after creating the missing accounts of `to` and `from`, both exist with the balances the ledger reported for them, and every other account is unchanged |
| TokenLedger.MoveBalance | src/tokenCanister/index.ts:59-60 | between distinct addresses `from` loses and `to` gains `amount`; on a self-transfer the `+=` reads the debited balance, so the account ends as it started; no other account changes |
| TokenLedger.MoveKeepsSum | src/tokenCanister/index.ts:59-60 | the debit-then-credit keeps the sum of balances, whether or not the two addresses coincide |
| TokenLedger.EnsureAccountKeepsSum | src/tokenCanister/index.ts:40-52 | creating the empty account does not change the sum of balances |
| TokenLedger.Transfer | src/tokenCanister/index.ts:35-63 | fails with no change iff the sender's balance is below `amount`; otherwise debits `from` and credits `to` by `amount`, leaves a self-transfer's balance unchanged, touches no other account and keeps the supply, name and ticker |
| TokenLedger.TransferConservesSupply | src/tokenCanister/index.ts:35-63 | a successful transfer keeps the sum of all balances, so a conserved ledger stays conserved |
| TokenLedger.TransferBackRestoresBalances | src/tokenCanister/index.ts:53-60 | a transfer followed by the return transfer succeeds and restores every balance |
| TokenLedger.SupplyConservedAfterInitialization | src/tokenCanister/index.ts:18-63 | after `initializeSupply`, any sequence of transfers leaves the balances summing to the supply |
| TokenLedger.TransfersKeepConserved | src/tokenCanister/index.ts:35-63 | starting from a conserved ledger, any sequence of transfers keeps it conserved and keeps the supply |

## Findings

| source | as written | input that shows it | evidently intended | confidence | as-written member | corrected member |
|---|---|---|---|---|---|---|
| src/daoCanister/index.ts:246-259 | `transferShares` computes the recipient's new balance before debiting the sender and writes it last | a member holding 5 shares transfers 5 to themself: they end with 10 while `totalShares` stays 5 | a transfer to oneself changes nothing, so `totalShares` always equals the balance sum | high, not executed | Dao.TransferShares | Dao.TransferSharesCorrected |
| src/index.ts:97 | `init` ends with `ic.trap("Initialization complete")`, which aborts the install and discards every assignment | any payload with quorum at most 100: `init` fails, so the install is rejected and no later call reaches this code; even the initial globals would refuse every `joinDAO` at a positive time | `init` completes and stores the configuration | medium, not executed | LegacyDao.InitAsWritten | LegacyDao.Init |

For the first row, `DaoMachine.SelfTransferReachable` reaches the inflated state from a fresh canister, and `DaoMachine.ReachableCorrectedInv` proves conservation of shares for the repaired canister. `DaoMachine.SelfTransferBreaksShareInv` shows that the written canister breaks conservation from every conserved, initialized state in which the caller moves to themself a positive amount they hold. `LegacyDao.TransferShares` models the same defect in `src/index.ts` as written. For the second row, `LegacyDao.InitTrapClosesContribution` compares the two versions of `init`.

## Left out

- External ledger calls (`deposit`, `transfer`, `getAccountBalance`, `getTransferFee`, src/daoCanister/index.ts:464-529) call other canisters. Each await is replaced by the `paid` parameter: did the awaited call return without trapping? The canister ignores the ledger's own result (src/daoCanister/index.ts:123, 202, 407), so `paid = true` means "did not trap", not "value moved".
- Network selection and token-canister calls (src/daoCanister/index.ts:59-66, 116-124, 195-203, 399-408) are left out. The local and mainnet branches differ in which external call is awaited and in whether its result is checked. The local branch traps when the token canister reports a false status (src/daoCanister/index.ts:117-120, 196-199, 401-404). The mainnet branch ignores the ledger's result, and its `transfer` helper traps only when the canister's balance is unknown or at most `amount` (src/daoCanister/index.ts:500-525). Both become `paid`: did the awaited call return without trapping? `getFaucetTokens` and `walletBalanceLocal` are left out too: they are test helpers that only call the token canister.
- `getDaoData` (src/daoCanister/index.ts:73-91) only formats the state as strings.
- Interleaving across `await` is not modelled. Each call is atomic, so the stale `updatedShares` computed before the await in `redeemShares` (src/daoCanister/index.ts:183-209) cannot be observed.
- Integer widths are not modelled. Amounts, balances and times are unbounded naturals, and counters are unbounded integers. Overflow of `nat64` values or of `int32` proposal ids when stored in the stable maps is not modelled.
- Principals are plain strings. Failures of `Principal.fromText` on malformed text are not modelled. In `getShares` the empty string stands for the caller.
- The vote key is the pair (voter, proposal id). The source builds a string by concatenating the principal text and the id. Possible collisions between such strings are not modelled.
- Stable-map sizing, persistence across canister upgrades and the `Service` declarations are library details.
- The canonical `init`'s `canisterAddress`, `icpCanister` and `tokenCanister` assignments, and the legacy `init`'s, are left out. The quorum check `payload.quorum < 0` is vacuous for a `nat64` and is not modelled.
- Before `init`, the canonical canister's globals are `undefined`. Every call that reads them fails on the `initialized` check first, so `Dao.InitialState` gives them zero values.
- src/index.ts awaits `deposit` (line 116) and `transfer` (line 161) but defines neither, and it does not import `StableBTreeMap`, `match` or `$init`. In `LegacyDao` the `paid` parameter therefore stands for code that file does not contain.
- The token canister's `ticker` and `name` queries only return a field. JavaScript prototype keys used as addresses (for example `"constructor"`) are not modelled.
- Dao.TruncDiv: the contract covers only a non-negative numerator and a positive divisor. `DaoMachine.ReachableRegistryInv` shows these are the only operands that reach the division, because `totalShares >= availableFunds + lockedFunds >= 0` and a zero divisor is reported as `DivisionByZero`.
- Dao.GetProposals: returns the proposals stored under ids `0 .. nextProposalId-1`, while the source returns every stored value. `DaoMachine.RegistryInv` shows that in every reachable state no other ids are stored.

=== FILE: dao.dfy ===
/** The DAO canister (src/daoCanister/index.ts): share ledger, two-bucket treasury,
    proposal registry, vote-dedup set and set-once configuration, with one pure
    transition function per update call and one query function per query call.

    Every transition takes the calling principal `caller` and the host clock `now`
    as parameters.  Where an operation awaits an external canister (the ICP ledger
    or the token canister) before writing, the parameter `paid` says whether that
    awaited call returned without trapping; `joinDAO`, `redeemShares` and
    `executeProposal` write nothing before the await, so a trap there leaves the
    state as it was.
 */
module Dao {
  import opened Results
  import opened MapSum
  import opened ShareLedger

  datatype Proposal = Proposal(
    id: int,
    title: string,
    amount: nat,
    recipient: string,
    votes: nat,
    ends: nat,
    executed: bool,
    ended: bool)

  /** Set once by `init`: quorum percentage, voting period, contribution deadline, administrator. */
  datatype Config = Config(quorum: nat, voteTime: nat, contributionEnds: nat, admin: Principal)

  /** The fields of the init payload the state machine uses. */
  datatype InitPayload = InitPayload(contributionTime: nat, voteTime: nat, quorum: nat)

  /** A (voter, proposal id) pair that has already voted. */
  type VoteKey = (Principal, int)

  /** The treasury counters are JavaScript BigInts in the canister and are kept as
      `int` here; that they never go negative is a theorem, not a type. */
  datatype DaoState = DaoState(
    initialized: bool,
    config: Config,
    shares: Shares,
    totalShares: int,
    availableFunds: int,
    lockedFunds: int,
    proposals: map<int, Proposal>,
    nextProposalId: int,
    voted: set<VoteKey>)

  datatype DaoError =
    | NotInitialized
    | AlreadyInitialized
    | QuorumOutOfRange
    | ContributionClosed
    | NonPositiveAmount
    | InsufficientFunds
    | NoShares
    | InsufficientShares
    | AlreadyVoted
    | ProposalNotFound
    | VotingClosed
    | NotAdmin
    | NotYetEnded
    | AlreadyEnded
    | DivisionByZero
    | ExternalCallFailed
    | InitAborted  // the older variant's init ends in a trap and never completes

  /** The canister before `init`: nothing stored, every counter zero, not initialized. */
  function InitialState(): (s: DaoState)
    ensures !s.initialized && s.shares == map[] && s.proposals == map[] && s.voted == {}
    ensures s.totalShares == 0 && s.availableFunds == 0 && s.lockedFunds == 0 && s.nextProposalId == 0
  {
    DaoState(false, Config(0, 0, 0, ""), map[], 0, 0, 0, map[], 0, {})
  }

  /** `init`: reject a second initialization and a quorum above 100, then fix the
      configuration (deadline relative to `now`, caller as admin) and zero the counters.
      The stable maps are left as they are. */
  function Init(s: DaoState, caller: Principal, now: nat, payload: InitPayload): (r: Result<DaoState, DaoError>)
    ensures r.Ok? <==> !s.initialized && payload.quorum <= 100
    ensures s.initialized ==> r == Err(AlreadyInitialized)
    ensures !s.initialized && payload.quorum > 100 ==> r == Err(QuorumOutOfRange)
    ensures r.Ok? ==> r.value.initialized && r.value.config.admin == caller
    ensures r.Ok? ==> r.value.config.quorum == payload.quorum && r.value.config.voteTime == payload.voteTime
    ensures r.Ok? ==> r.value.config.contributionEnds == now + payload.contributionTime
    ensures r.Ok? ==> r.value.totalShares == 0 && r.value.availableFunds == 0 && r.value.lockedFunds == 0
    ensures r.Ok? ==> r.value.nextProposalId == 0
    ensures r.Ok? ==> r.value.shares == s.shares && r.value.proposals == s.proposals && r.value.voted == s.voted
  {
    if s.initialized then Err(AlreadyInitialized)
    else if payload.quorum > 100 then Err(QuorumOutOfRange)
    else
      Ok(s.(initialized := true,
            config := Config(payload.quorum, payload.voteTime, now + payload.contributionTime, caller),
            totalShares := 0,
            availableFunds := 0,
            lockedFunds := 0,
            nextProposalId := 0))
  }

  /** `joinDAO`: contribute `amount` before the deadline and receive as many shares. */
  function JoinDAO(s: DaoState, caller: Principal, now: nat, amount: nat, paid: bool): (r: Result<DaoState, DaoError>)
    ensures r.Ok? <==> s.initialized && now <= s.config.contributionEnds && amount > 0 && paid
    ensures !s.initialized ==> r == Err(NotInitialized)
    ensures s.initialized && now > s.config.contributionEnds ==> r == Err(ContributionClosed)
    ensures s.initialized && now <= s.config.contributionEnds && amount == 0 ==> r == Err(NonPositiveAmount)
    ensures r.Ok? ==> Get(r.value.shares, caller) == Get(s.shares, caller) + amount
    ensures r.Ok? ==> r.value.shares - {caller} == s.shares - {caller}
    ensures r.Ok? ==> Sum(r.value.shares) == Sum(s.shares) + amount
    ensures r.Ok? ==> r.value.totalShares == s.totalShares + amount
    ensures r.Ok? ==> r.value.availableFunds == s.availableFunds + amount
    ensures r.Ok? ==> r.value == s.(shares := r.value.shares, totalShares := r.value.totalShares,
                                    availableFunds := r.value.availableFunds)
  {
    if !s.initialized then Err(NotInitialized)
    else if now > s.config.contributionEnds then Err(ContributionClosed)
    else if amount == 0 then Err(NonPositiveAmount)
    else if !paid then Err(ExternalCallFailed)
    else
      Ok(s.(shares := Credit(s.shares, caller, amount),
            totalShares := s.totalShares + amount,
            availableFunds := s.availableFunds + amount))
  }

  /** `getShares`: the balance of `address`, or of the caller when `address` is empty; 0 for a non-member. */
  function GetShares(s: DaoState, caller: Principal, address: Principal): (r: Result<nat, DaoError>)
    ensures r.Ok? <==> s.initialized
    ensures r.Err? ==> r.error == NotInitialized
    ensures r.Ok? && address != "" ==> (address in s.shares ==> r.value == s.shares[address])
    ensures r.Ok? && address != "" ==> (address !in s.shares ==> r.value == 0)
    ensures r.Ok? && address == "" ==> r.value == Get(s.shares, caller)
  {
    if !s.initialized then Err(NotInitialized)
    else
      var who := if address == "" then caller else address;
      Ok(Get(s.shares, who))
  }

  /** `redeemShares`: give back `amount` shares against `amount` of available funds. */
  function RedeemShares(s: DaoState, caller: Principal, amount: nat, paid: bool): (r: Result<DaoState, DaoError>)
    ensures r.Ok? <==> s.initialized && amount <= s.availableFunds && caller in s.shares
                       && amount <= s.shares[caller] && paid
    ensures s.initialized && s.availableFunds < amount ==> r == Err(InsufficientFunds)
    ensures s.initialized && amount <= s.availableFunds && caller !in s.shares ==> r == Err(NoShares)
    ensures s.initialized && amount <= s.availableFunds && caller in s.shares && s.shares[caller] < amount
            ==> r == Err(InsufficientShares)
    ensures r.Ok? ==> Get(r.value.shares, caller) + amount == s.shares[caller]
    ensures r.Ok? ==> (caller in r.value.shares <==> Get(r.value.shares, caller) > 0)
    ensures r.Ok? ==> r.value.shares - {caller} == s.shares - {caller}
    ensures r.Ok? ==> Sum(r.value.shares) + amount == Sum(s.shares)
    ensures r.Ok? ==> r.value.totalShares + amount == s.totalShares
    ensures r.Ok? ==> r.value.availableFunds + amount == s.availableFunds
    ensures r.Ok? ==> r.value == s.(shares := r.value.shares, totalShares := r.value.totalShares,
                                    availableFunds := r.value.availableFunds)
  {
    if !s.initialized then Err(NotInitialized)
    else if s.availableFunds < amount then Err(InsufficientFunds)
    else if caller !in s.shares then Err(NoShares)
    else if s.shares[caller] < amount then Err(InsufficientShares)
    else if !paid then Err(ExternalCallFailed)
    else
      Ok(s.(shares := Debit(s.shares, caller, amount),
            totalShares := s.totalShares - amount,
            availableFunds := s.availableFunds - amount))
  }

  /** `transferShares`: move `amount` of the caller's shares to `to`, as the canister writes it. */
  function TransferShares(s: DaoState, caller: Principal, to: Principal, amount: nat): (r: Result<DaoState, DaoError>)
    ensures r.Ok? <==> s.initialized && caller in s.shares && amount <= s.shares[caller]
    ensures s.initialized && caller !in s.shares ==> r == Err(NoShares)
    ensures s.initialized && caller in s.shares && s.shares[caller] < amount ==> r == Err(InsufficientShares)
    ensures r.Ok? && caller != to ==> Sum(r.value.shares) == Sum(s.shares)
    ensures r.Ok? && caller != to ==> Get(r.value.shares, caller) + amount == s.shares[caller]
    ensures r.Ok? && caller != to ==> Get(r.value.shares, to) == Get(s.shares, to) + amount
    ensures r.Ok? && caller != to ==> (caller in r.value.shares <==> amount < s.shares[caller])
    ensures r.Ok? ==> to in r.value.shares
    ensures r.Ok? ==> r.value.shares - {caller, to} == s.shares - {caller, to}
    ensures r.Ok? ==> r.value == s.(shares := r.value.shares)
  {
    if !s.initialized then Err(NotInitialized)
    else if caller !in s.shares then Err(NoShares)
    else if s.shares[caller] < amount then Err(InsufficientShares)
    else
      Ok(s.(shares := Transfer(s.shares, caller, to, amount)))
  }

  /** `transferShares` with the self-transfer repaired: the same checks, but the
      ledger update is a debit followed by a credit, so a transfer to oneself is a no-op. */
  function TransferSharesCorrected(s: DaoState, caller: Principal, to: Principal, amount: nat): (r: Result<DaoState, DaoError>)
    ensures r.Ok? <==> s.initialized && caller in s.shares && amount <= s.shares[caller]
    ensures r.Err? ==> r == TransferShares(s, caller, to, amount)
    ensures r.Ok? ==> Sum(r.value.shares) == Sum(s.shares)
    ensures r.Ok? && caller == to ==> r.value == s
    ensures r.Ok? && caller != to ==> r == TransferShares(s, caller, to, amount)
    ensures r.Ok? ==> r.value == s.(shares := r.value.shares)
  {
    if !s.initialized then Err(NotInitialized)
    else if caller !in s.shares then Err(NoShares)
    else if s.shares[caller] < amount then Err(InsufficientShares)
    else
      if caller == to then Ok(s)
      else
        TransferDistinctConserves(s.shares, caller, to, amount);
        Ok(s.(shares := TransferCorrected(s.shares, caller, to, amount)))
  }

  /** `createProposal`: a member locks `amount` of the available funds behind a new
      proposal that stays open for `voteTime` from `now`. */
  function CreateProposal(s: DaoState, caller: Principal, now: nat, title: string, amount: nat,
                          recipient: string): (r: Result<DaoState, DaoError>)
    ensures r.Ok? <==> s.initialized && amount <= s.availableFunds && caller in s.shares
    ensures s.initialized && s.availableFunds < amount ==> r == Err(InsufficientFunds)
    ensures s.initialized && amount <= s.availableFunds && caller !in s.shares ==> r == Err(NoShares)
    ensures r.Ok? ==> s.nextProposalId in r.value.proposals
    ensures r.Ok? ==> r.value.proposals[s.nextProposalId]
                      == Proposal(s.nextProposalId, title, amount, recipient, 0, now + s.config.voteTime, false, false)
    ensures r.Ok? ==> r.value.proposals - {s.nextProposalId} == s.proposals - {s.nextProposalId}
    ensures r.Ok? ==> r.value.nextProposalId == s.nextProposalId + 1
    ensures r.Ok? ==> r.value.availableFunds + amount == s.availableFunds
    ensures r.Ok? ==> r.value.lockedFunds == s.lockedFunds + amount
    ensures r.Ok? ==> r.value.availableFunds + r.value.lockedFunds == s.availableFunds + s.lockedFunds
    ensures r.Ok? ==> r.value == s.(proposals := r.value.proposals, nextProposalId := r.value.nextProposalId,
                                    availableFunds := r.value.availableFunds, lockedFunds := r.value.lockedFunds)
  {
    if !s.initialized then Err(NotInitialized)
    else if s.availableFunds < amount then Err(InsufficientFunds)
    else if caller !in s.shares then Err(NoShares)
    else
      var id := s.nextProposalId;
      var proposal := Proposal(id, title, amount, recipient, 0, now + s.config.voteTime, false, false);
      Ok(s.(proposals := s.proposals[id := proposal],
            availableFunds := s.availableFunds - amount,
            lockedFunds := s.lockedFunds + amount,
            nextProposalId := id + 1))
  }

  /** `voteProposal`: a member adds their current share balance to an open proposal, once. */
  function VoteProposal(s: DaoState, caller: Principal, now: nat, id: int): (r: Result<DaoState, DaoError>)
    ensures r.Ok? <==> s.initialized && caller in s.shares && (caller, id) !in s.voted
                       && id in s.proposals && now <= s.proposals[id].ends
    ensures s.initialized && caller !in s.shares ==> r == Err(NoShares)
    ensures s.initialized && caller in s.shares && (caller, id) in s.voted ==> r == Err(AlreadyVoted)
    ensures s.initialized && caller in s.shares && (caller, id) !in s.voted && id !in s.proposals
            ==> r == Err(ProposalNotFound)
    ensures (s.initialized && caller in s.shares && (caller, id) !in s.voted && id in s.proposals
             && now > s.proposals[id].ends) ==> r == Err(VotingClosed)
    ensures r.Ok? ==> r.value.voted == s.voted + {(caller, id)}
    ensures r.Ok? ==> id in r.value.proposals
                      && r.value.proposals[id] == s.proposals[id].(votes := s.proposals[id].votes + s.shares[caller])
    ensures r.Ok? ==> r.value.proposals - {id} == s.proposals - {id}
    ensures r.Ok? ==> r.value == s.(proposals := r.value.proposals, voted := r.value.voted)
  {
    if !s.initialized then Err(NotInitialized)
    else if caller !in s.shares then Err(NoShares)
    else if (caller, id) in s.voted then Err(AlreadyVoted)
    else if id !in s.proposals then Err(ProposalNotFound)
    else
      var p := s.proposals[id];
      if now > p.ends then Err(VotingClosed)
      else
        Ok(s.(proposals := s.proposals[id := p.(votes := p.votes + s.shares[caller])],
              voted := s.voted + {(caller, id)}))
  }

  /** JavaScript BigInt division, which truncates toward zero (Dafny's `/` is Euclidean). */
  function TruncDiv(a: int, b: int): (q: int)
    requires b != 0
    ensures a >= 0 && b > 0 ==> q * b <= a < q * b + b
  {
    var n := if a >= 0 then a else -a;
    var d := if b >= 0 then b else -b;
    if (a >= 0) == (b > 0) then n / d else -(n / d)
  }

  /** A truncated quotient reaches `q` exactly when the numerator reaches `q` times the divisor. */
  lemma {:induction false} TruncDivThreshold(a: nat, d: int, q: nat)
    requires d != 0
    ensures d > 0 ==> (TruncDiv(a, d) >= q <==> a >= q * d)
  {
    var t := TruncDiv(a, d);
    if d < 0 {
    } else if t >= q {
      MulMonotone(q, t, d);
    } else {
      MulMonotone(t + 1, q, d);
      assert (t + 1) * d == t * d + d;
    }
  }

  lemma MulMonotone(x: int, y: int, c: nat)
    requires x <= y
    ensures x * c <= y * c
  {
  }

  /** The quorum test of `executeProposal`: `votes * 100 / totalShares >= quorum` in BigInt
      arithmetic.  For a positive share count it accepts exactly when the cross-multiplied
      test does, so the integer division never under- or over-approves against the exact ratio. */
  function MeetsQuorum(votes: nat, totalShares: int, quorum: nat): (passes: bool)
    requires totalShares != 0
    ensures totalShares > 0 ==> (passes <==> votes * 100 >= quorum * totalShares)
  {
    TruncDivThreshold(votes * 100, totalShares, quorum);
    TruncDiv(votes * 100, totalShares) >= quorum
  }

  /** `executeProposal`: the admin closes a proposal whose deadline has come.  A
      proposal meeting the quorum pays its amount out of the locked funds; one that
      misses it returns its amount to the available funds. */
  function ExecuteProposal(s: DaoState, caller: Principal, now: nat, id: int, paid: bool): (r: Result<DaoState, DaoError>)
    ensures r.Ok? <==> s.initialized && caller == s.config.admin && id in s.proposals
                       && now >= s.proposals[id].ends && !s.proposals[id].ended && s.totalShares != 0
                       && (MeetsQuorum(s.proposals[id].votes, s.totalShares, s.config.quorum) ==> paid)
    ensures s.initialized && caller != s.config.admin ==> r == Err(NotAdmin)
    ensures s.initialized && caller == s.config.admin && id !in s.proposals ==> r == Err(ProposalNotFound)
    ensures s.initialized && caller == s.config.admin && id in s.proposals && now < s.proposals[id].ends
            ==> r == Err(NotYetEnded)
    ensures (s.initialized && caller == s.config.admin && id in s.proposals && s.proposals[id].ended
             && now >= s.proposals[id].ends) ==> r == Err(AlreadyEnded)
    ensures (s.initialized && caller == s.config.admin && id in s.proposals && !s.proposals[id].ended
             && now >= s.proposals[id].ends && s.totalShares == 0) ==> r == Err(DivisionByZero)
    ensures r.Ok? ==> id in r.value.proposals && r.value.proposals[id].ended
    ensures r.Ok? ==> r.value.proposals[id].executed == MeetsQuorum(s.proposals[id].votes, s.totalShares, s.config.quorum)
    ensures r.Ok? ==> r.value.proposals[id] == s.proposals[id].(ended := true, executed := r.value.proposals[id].executed)
    ensures r.Ok? ==> r.value.proposals - {id} == s.proposals - {id}
    ensures r.Ok? ==> r.value.lockedFunds + s.proposals[id].amount == s.lockedFunds
    ensures r.Ok? ==> r.value.availableFunds
                      == s.availableFunds + (if r.value.proposals[id].executed then 0 else s.proposals[id].amount)
    ensures r.Ok? ==> r.value == s.(proposals := r.value.proposals, availableFunds := r.value.availableFunds,
                                    lockedFunds := r.value.lockedFunds)
  {
    if !s.initialized then Err(NotInitialized)
    else if caller != s.config.admin then Err(NotAdmin)
    else if id !in s.proposals then Err(ProposalNotFound)
    else
      var p := s.proposals[id];
      if now < p.ends then Err(NotYetEnded)
      else if p.ended then Err(AlreadyEnded)
      else if s.totalShares == 0 then Err(DivisionByZero)
      else
        var passes := MeetsQuorum(p.votes, s.totalShares, s.config.quorum);
        if passes && !paid then Err(ExternalCallFailed)
        else
          Ok(s.(availableFunds := if passes then s.availableFunds else s.availableFunds + p.amount,
                lockedFunds := s.lockedFunds - p.amount,
                proposals := s.proposals[id := p.(ended := true, executed := passes)]))
  }

  /** `getProposal`: the stored proposal, or an error for an unknown id (no initialization check). */
  function GetProposal(s: DaoState, id: int): (r: Result<Proposal, DaoError>)
    ensures r.Ok? <==> id in s.proposals
    ensures r.Ok? ==> r.value == s.proposals[id]
    ensures r.Err? ==> r.error == ProposalNotFound
  {
    if id in s.proposals then Ok(s.proposals[id]) else Err(ProposalNotFound)
  }

  /** `getProposals`: the stored proposals in increasing id order, for the ids the
      registry has handed out (0 up to `nextProposalId`). */
  method GetProposals(s: DaoState) returns (r: seq<Proposal>)
    ensures forall j :: 0 <= j < |r| ==> r[j] in s.proposals.Values
    ensures forall id :: 0 <= id < s.nextProposalId && id in s.proposals ==> s.proposals[id] in r
    ensures |r| <= if s.nextProposalId < 0 then 0 else s.nextProposalId
    ensures (forall id :: id in s.proposals ==> s.proposals[id].id == id)
            ==> forall i, j :: 0 <= i < j < |r| ==> r[i].id < r[j].id
  {
    r := [];
    var id := 0;
    while id < s.nextProposalId
      invariant 0 <= id && (s.nextProposalId >= 0 ==> id <= s.nextProposalId)
      invariant s.nextProposalId < 0 ==> id == 0
      invariant |r| <= id
      invariant forall j :: 0 <= j < |r| ==> r[j] in s.proposals.Values
      invariant forall k :: 0 <= k < id && k in s.proposals ==> s.proposals[k] in r
      invariant (forall k :: k in s.proposals ==> s.proposals[k].id == k)
                ==> forall j :: 0 <= j < |r| ==> 0 <= r[j].id < id
      invariant (forall k :: k in s.proposals ==> s.proposals[k].id == k)
                ==> forall i, j :: 0 <= i < j < |r| ==> r[i].id < r[j].id
    {
      if id in s.proposals {
        r := r + [s.proposals[id]];
      }
      id := id + 1;
    }
  }
}

=== FILE: dao_lemmas.dfy ===
/** Properties of single DAO operations and of short sequences of them: the quorum
    arithmetic, round trips, exactly-once voting, the terminal proposal state, and
    the anomalies the canister's code admits. */
module DaoLemmas {
  import opened Results
  import opened MapSum
  import opened ShareLedger
  import opened Dao

  /** A quorum of 0 passes every proposal; a quorum of 100 needs votes equal to all shares. */
  lemma QuorumExtremes(votes: nat, totalShares: int)
    requires totalShares > 0
    ensures MeetsQuorum(votes, totalShares, 0)
    ensures MeetsQuorum(votes, totalShares, 100) <==> votes >= totalShares
  {
  }

  /** Joining and then redeeming the same amount returns the DAO to where it was,
      provided the caller did not hold a zero-share entry (the redeem would delete it). */
  lemma JoinThenRedeemRestores(s: DaoState, caller: Principal, now: nat, amount: nat)
    requires JoinDAO(s, caller, now, amount, true).Ok?
    requires s.availableFunds >= 0
    requires caller !in s.shares || s.shares[caller] > 0
    ensures RedeemShares(JoinDAO(s, caller, now, amount, true).value, caller, amount, true) == Ok(s)
  {
    DebitUndoesCredit(s.shares, caller, amount);
  }

  /** Sending shares to another member and back restores the DAO, unless the recipient
      held a zero-share entry. */
  lemma TransferThenReturnRestores(s: DaoState, caller: Principal, to: Principal, amount: nat)
    requires TransferShares(s, caller, to, amount).Ok?
    requires caller != to
    requires to !in s.shares || s.shares[to] > 0
    ensures TransferShares(TransferShares(s, caller, to, amount).value, to, caller, amount) == Ok(s)
  {
    TransferBackRestores(s.shares, caller, to, amount);
  }

  /** A successful vote records the pair, and any later vote of the same pair is
      refused with `AlreadyVoted`, whatever the time. */
  lemma SecondVoteRejected(s: DaoState, voter: Principal, now: nat, later: nat, id: int)
    requires VoteProposal(s, voter, now, id).Ok?
    ensures (voter, id) !in s.voted && (voter, id) in VoteProposal(s, voter, now, id).value.voted
    ensures VoteProposal(VoteProposal(s, voter, now, id).value, voter, later, id) == Err(AlreadyVoted)
  {
  }

  /** For a member with an unused (voter, proposal) pair on a stored proposal, the only way
      a vote fails is that the deadline has passed; the failure records nothing. */
  lemma VoteFailsOnlyAfterDeadline(s: DaoState, voter: Principal, now: nat, id: int)
    requires VoteProposal(s, voter, now, id).Err?
    requires (voter, id) !in s.voted
    ensures s.initialized && voter in s.shares && id in s.proposals ==> now > s.proposals[id].ends
  {
  }

  /** A proposal that has been closed can never be closed again: every further
      `executeProposal` on it fails, whoever calls and whenever. */
  lemma ExecuteIsOnce(s: DaoState, admin: Principal, now: nat, id: int, paid: bool,
                      caller: Principal, later: nat, paid2: bool)
    requires ExecuteProposal(s, admin, now, id, paid).Ok?
    ensures ExecuteProposal(ExecuteProposal(s, admin, now, id, paid).value, caller, later, id, paid2).Err?
  {
  }

  /** Executing straight after creation, before the voting period has run, fails with
      `NotYetEnded`. */
  lemma ExecuteBeforeDeadlineFails(s: DaoState, member: Principal, now: nat, title: string, amount: nat,
                                   recipient: string, later: nat, paid: bool)
    requires CreateProposal(s, member, now, title, amount, recipient).Ok?
    requires later < now + s.config.voteTime
    ensures ExecuteProposal(CreateProposal(s, member, now, title, amount, recipient).value,
                            s.config.admin, later, s.nextProposalId, paid) == Err(NotYetEnded)
  {
  }

  /** At the instant `now == ends` the proposal is still open for voting and already
      executable: both checks admit the boundary. */
  lemma BoundaryInstantOpenAndExecutable(s: DaoState, voter: Principal, id: int)
    requires s.initialized && voter in s.shares && (voter, id) !in s.voted
    requires id in s.proposals && !s.proposals[id].ended && s.totalShares != 0
    ensures VoteProposal(s, voter, s.proposals[id].ends, id).Ok?
    ensures ExecuteProposal(s, s.config.admin, s.proposals[id].ends, id, true).Ok?
  {
  }

  /** Because voting never looks at `ended`, a vote cast at the boundary instant after
      the proposal was executed is accepted and changes the closed proposal's tally. */
  lemma VoteAfterExecutionAtBoundary(s: DaoState, voter: Principal, id: int)
    requires s.initialized && voter in s.shares && (voter, id) !in s.voted && s.shares[voter] > 0
    requires id in s.proposals && !s.proposals[id].ended && s.totalShares != 0
    ensures var closed := ExecuteProposal(s, s.config.admin, s.proposals[id].ends, id, true).value;
            && closed.proposals[id].ended
            && VoteProposal(closed, voter, s.proposals[id].ends, id).Ok?
            && VoteProposal(closed, voter, s.proposals[id].ends, id).value.proposals[id].votes
               > closed.proposals[id].votes
  {
  }

  /** With no shares outstanding the quorum test divides by zero, so no proposal can be
      executed until someone joins again; its funds stay locked. */
  lemma NoExecutionWithoutShares(s: DaoState, caller: Principal, now: nat, id: int, paid: bool)
    requires s.totalShares == 0
    ensures ExecuteProposal(s, caller, now, id, paid).Err?
  {
  }

  /** Accumulated votes are not bounded by `totalShares`: shares that already voted can be
      transferred to a second member, who votes with them again. */
  lemma VotesCanExceedTotalShares()
    ensures var s := DaoState(true, Config(50, 10, 10, "admin"), map["a" := 10], 10, 10, 0,
                              map[0 := Proposal(0, "t", 0, "x", 0, 10, false, false)], 1, {});
            var s1 := VoteProposal(s, "a", 5, 0).value;
            var s2 := TransferShares(s1, "a", "b", 10).value;
            var s3 := VoteProposal(s2, "b", 5, 0).value;
            s3.proposals[0].votes == 20 > s3.totalShares
  {
    var s := DaoState(true, Config(50, 10, 10, "admin"), map["a" := 10], 10, 10, 0,
                      map[0 := Proposal(0, "t", 0, "x", 0, 10, false, false)], 1, {});
    var s1 := VoteProposal(s, "a", 5, 0).value;
    assert s1.proposals[0].votes == 10;
    var s2 := TransferShares(s1, "a", "b", 10).value;
    assert s2.shares["b"] == 10;
    assert ("b", 0) !in s2.voted;
  }

  /** What `getShares` reports after a join: the caller's balance has grown by the
      contribution, and every other member's reported balance is what it was. */
  lemma SharesObservedAfterJoin(s: DaoState, caller: Principal, now: nat, amount: nat, paid: bool, other: Principal)
    requires JoinDAO(s, caller, now, amount, paid).Ok?
    ensures GetShares(JoinDAO(s, caller, now, amount, paid).value, caller, "") == Ok(GetShares(s, caller, "").value + amount)
    ensures other != caller && other != ""
            ==> GetShares(JoinDAO(s, caller, now, amount, paid).value, caller, other) == GetShares(s, caller, other)
  {
  }

  /** What `getShares` reports after a redemption: the caller's balance has dropped by
      the redeemed amount, and every other member's reported balance is what it was. */
  lemma SharesObservedAfterRedeem(s: DaoState, caller: Principal, amount: nat, paid: bool, other: Principal)
    requires RedeemShares(s, caller, amount, paid).Ok?
    ensures GetShares(RedeemShares(s, caller, amount, paid).value, caller, "").value + amount
            == GetShares(s, caller, "").value
    ensures other != caller && other != ""
            ==> GetShares(RedeemShares(s, caller, amount, paid).value, caller, other) == GetShares(s, caller, other)
  {
  }

  /** What `getShares` reports after a transfer between two distinct principals: the
      sender reports `amount` less, the recipient `amount` more, everyone else the same. */
  lemma SharesObservedAfterTransfer(s: DaoState, caller: Principal, to: Principal, amount: nat, other: Principal)
    requires TransferShares(s, caller, to, amount).Ok?
    requires caller != to && to != ""
    ensures GetShares(TransferShares(s, caller, to, amount).value, caller, "").value + amount
            == GetShares(s, caller, "").value
    ensures GetShares(TransferShares(s, caller, to, amount).value, caller, to).value
            == GetShares(s, caller, to).value + amount
    ensures other != caller && other != to && other != ""
            ==> GetShares(TransferShares(s, caller, to, amount).value, caller, other) == GetShares(s, caller, other)
  {
  }

  /** What `getProposal` reports after a proposal is created: the new id holds an open
      proposal with no votes and deadline `now + voteTime`; every other id reads as before. */
  lemma ProposalObservedAfterCreate(s: DaoState, caller: Principal, now: nat, title: string, amount: nat,
                                    recipient: string, other: int)
    requires CreateProposal(s, caller, now, title, amount, recipient).Ok?
    ensures GetProposal(CreateProposal(s, caller, now, title, amount, recipient).value, s.nextProposalId)
            == Ok(Proposal(s.nextProposalId, title, amount, recipient, 0, now + s.config.voteTime, false, false))
    ensures other != s.nextProposalId
            ==> GetProposal(CreateProposal(s, caller, now, title, amount, recipient).value, other) == GetProposal(s, other)
  {
  }

  /** What `getProposal` reports after a vote: the tally has grown by the voter's shares,
      nothing else about that proposal changed, and every other id reads as before. */
  lemma ProposalObservedAfterVote(s: DaoState, voter: Principal, now: nat, id: int, other: int)
    requires VoteProposal(s, voter, now, id).Ok?
    ensures GetProposal(VoteProposal(s, voter, now, id).value, id)
            == Ok(GetProposal(s, id).value.(votes := GetProposal(s, id).value.votes + GetShares(s, voter, "").value))
    ensures other != id ==> GetProposal(VoteProposal(s, voter, now, id).value, other) == GetProposal(s, other)
  {
  }

  /** What `getProposal` reports after an execution: the proposal is closed, `executed`
      says whether it met the quorum, and every other id reads as before. */
  lemma ProposalObservedAfterExecute(s: DaoState, caller: Principal, now: nat, id: int, paid: bool, other: int)
    requires ExecuteProposal(s, caller, now, id, paid).Ok?
    ensures GetProposal(ExecuteProposal(s, caller, now, id, paid).value, id)
            == Ok(GetProposal(s, id).value.(ended := true,
                                            executed := MeetsQuorum(s.proposals[id].votes, s.totalShares, s.config.quorum)))
    ensures other != id ==> GetProposal(ExecuteProposal(s, caller, now, id, paid).value, other) == GetProposal(s, other)
  {
  }
}

=== FILE: dao_machine.dfy ===
/** The DAO canister as a state machine over its update calls, and the invariants
    that hold in every state reachable from the freshly installed canister.

    `Next` is the canister as written.  `NextCorrected` differs only in `transferShares`,
    where it uses the repaired transfer; the conservation of shares
    (`totalShares == Sum(shares)`) holds for the corrected machine and fails for the
    written one as soon as a member transfers shares to themself. */
module DaoMachine {
  import opened Results
  import opened MapSum
  import opened ShareLedger
  import opened Dao

  datatype Action =
    | InitCall(caller: Principal, now: nat, payload: InitPayload)
    | JoinCall(caller: Principal, now: nat, amount: nat, paid: bool)
    | RedeemCall(caller: Principal, amount: nat, paid: bool)
    | TransferCall(caller: Principal, to: Principal, amount: nat)
    | CreateCall(caller: Principal, now: nat, title: string, amount: nat, recipient: string)
    | VoteCall(caller: Principal, now: nat, id: int)
    | ExecuteCall(caller: Principal, now: nat, id: int, paid: bool)

  function Apply(s: DaoState, a: Action): Result<DaoState, DaoError>
  {
    match a
    case InitCall(caller, now, payload) => Init(s, caller, now, payload)
    case JoinCall(caller, now, amount, paid) => JoinDAO(s, caller, now, amount, paid)
    case RedeemCall(caller, amount, paid) => RedeemShares(s, caller, amount, paid)
    case TransferCall(caller, to, amount) => TransferShares(s, caller, to, amount)
    case CreateCall(caller, now, title, amount, recipient) => CreateProposal(s, caller, now, title, amount, recipient)
    case VoteCall(caller, now, id) => VoteProposal(s, caller, now, id)
    case ExecuteCall(caller, now, id, paid) => ExecuteProposal(s, caller, now, id, paid)
  }

  function ApplyCorrected(s: DaoState, a: Action): Result<DaoState, DaoError>
  {
    match a
    case TransferCall(caller, to, amount) => TransferSharesCorrected(s, caller, to, amount)
    case _ => Apply(s, a)
  }

  /** The state after a call: the new state on success, the old one on any failure. */
  function Next(s: DaoState, a: Action): DaoState
  {
    match Apply(s, a)
    case Ok(t) => t
    case Err(_) => s
  }

  function NextCorrected(s: DaoState, a: Action): DaoState
  {
    match ApplyCorrected(s, a)
    case Ok(t) => t
    case Err(_) => s
  }

  function Run(s: DaoState, trace: seq<Action>): DaoState
    decreases |trace|
  {
    if trace == [] then s else Run(Next(s, trace[0]), trace[1..])
  }

  function RunCorrected(s: DaoState, trace: seq<Action>): DaoState
    decreases |trace|
  {
    if trace == [] then s else RunCorrected(NextCorrected(s, trace[0]), trace[1..])
  }

  /** What a proposal keeps locked: its amount while open, nothing once ended. */
  function Locked(p: Proposal): nat
  {
    if p.ended then 0 else p.amount
  }

  function OpenAmounts(proposals: map<int, Proposal>): map<int, nat>
  {
    map id | id in proposals :: Locked(proposals[id])
  }

  /** Treasury and registry bookkeeping: the available bucket is never negative, the
      locked bucket is exactly what the open proposals hold, the two buckets together
      never exceed the outstanding shares, proposal ids are 0 up to
      `nextProposalId` with each proposal stored under its own id, every recorded vote
      names a stored proposal, and nothing is stored before `init`. */
  ghost predicate RegistryInv(s: DaoState)
  {
    && s.availableFunds >= 0
    && s.lockedFunds == Sum(OpenAmounts(s.proposals))
    && s.availableFunds + s.lockedFunds <= s.totalShares
    && s.nextProposalId >= 0
    && (forall id :: id in s.proposals <==> 0 <= id < s.nextProposalId)
    && (forall id :: id in s.proposals ==> s.proposals[id].id == id)
    && (forall key :: key in s.voted ==> key.1 in s.proposals)
    && (!s.initialized ==> s.shares == map[] && s.totalShares == 0 && s.availableFunds == 0
                           && s.lockedFunds == 0 && s.nextProposalId == 0)
  }

  /** Conservation of shares: the running total is the sum of the balances. */
  ghost predicate ShareInv(s: DaoState)
  {
    s.totalShares == Sum(s.shares)
  }

  ghost predicate Inv(s: DaoState)
  {
    RegistryInv(s) && ShareInv(s)
  }

  lemma InitialStateSatisfiesInv()
    ensures Inv(InitialState())
  {
  }

  lemma OpenAmountsUpdate(proposals: map<int, Proposal>, id: int, p: Proposal)
    ensures OpenAmounts(proposals[id := p]) == OpenAmounts(proposals)[id := Locked(p)]
  {
  }

  lemma InitPreservesInv(s: DaoState, caller: Principal, now: nat, payload: InitPayload)
    requires RegistryInv(s)
    ensures var r := Init(s, caller, now, payload); r.Ok? ==> RegistryInv(r.value) && (ShareInv(s) ==> ShareInv(r.value))
  {
  }

  lemma CreatePreservesRegistryInv(s: DaoState, caller: Principal, now: nat, title: string, amount: nat,
                                   recipient: string)
    requires RegistryInv(s)
    ensures var r := CreateProposal(s, caller, now, title, amount, recipient); r.Ok? ==> RegistryInv(r.value)
  {
    var r := CreateProposal(s, caller, now, title, amount, recipient);
    if r.Ok? {
      var id := s.nextProposalId;
      var p := r.value.proposals[id];
      assert r.value.proposals == s.proposals[id := p];
      assert id !in s.proposals;
      OpenAmountsUpdate(s.proposals, id, p);
      SumUpdate(OpenAmounts(s.proposals), id, amount);
      forall k | k in r.value.proposals
        ensures r.value.proposals[k].id == k
      {
        if k != id { assert k in r.value.proposals - {id}; }
      }
    }
  }

  lemma VotePreservesRegistryInv(s: DaoState, caller: Principal, now: nat, id: int)
    requires RegistryInv(s)
    ensures var r := VoteProposal(s, caller, now, id); r.Ok? ==> RegistryInv(r.value)
  {
    var r := VoteProposal(s, caller, now, id);
    if r.Ok? {
      var p := r.value.proposals[id];
      assert r.value.proposals == s.proposals[id := p];
      OpenAmountsUpdate(s.proposals, id, p);
      assert OpenAmounts(s.proposals)[id := Locked(p)] == OpenAmounts(s.proposals);
    }
  }

  lemma ExecutePreservesRegistryInv(s: DaoState, caller: Principal, now: nat, id: int, paid: bool)
    requires RegistryInv(s)
    ensures var r := ExecuteProposal(s, caller, now, id, paid); r.Ok? ==> RegistryInv(r.value)
  {
    var r := ExecuteProposal(s, caller, now, id, paid);
    if r.Ok? {
      var p := r.value.proposals[id];
      assert r.value.proposals == s.proposals[id := p];
      OpenAmountsUpdate(s.proposals, id, p);
      SumUpdate(OpenAmounts(s.proposals), id, 0);
      assert Get(OpenAmounts(s.proposals), id) == s.proposals[id].amount;
    }
  }

  /** Every call of the written canister keeps the treasury and registry bookkeeping. */
  lemma NextPreservesRegistryInv(s: DaoState, a: Action)
    requires RegistryInv(s)
    ensures RegistryInv(Next(s, a))
  {
    match a
    case InitCall(caller, now, payload) => InitPreservesInv(s, caller, now, payload);
    case JoinCall(caller, now, amount, paid) =>
    case RedeemCall(caller, amount, paid) =>
    case TransferCall(caller, to, amount) =>
    case CreateCall(caller, now, title, amount, recipient) =>
      CreatePreservesRegistryInv(s, caller, now, title, amount, recipient);
    case VoteCall(caller, now, id) => VotePreservesRegistryInv(s, caller, now, id);
    case ExecuteCall(caller, now, id, paid) => ExecutePreservesRegistryInv(s, caller, now, id, paid);
  }

  /** Every call of the corrected canister keeps both the bookkeeping and the
      conservation of shares. */
  lemma NextCorrectedPreservesInv(s: DaoState, a: Action)
    requires Inv(s)
    ensures Inv(NextCorrected(s, a))
  {
    NextPreservesRegistryInv(s, a);
    match a
    case InitCall(caller, now, payload) => InitPreservesInv(s, caller, now, payload);
    case TransferCall(caller, to, amount) =>
    case _ =>
  }

  /** In every state the corrected canister can reach, shares are conserved, neither
      treasury bucket is negative and the locked funds are those of the open proposals. */
  lemma {:induction false} ReachableCorrectedInv(s: DaoState, trace: seq<Action>)
    requires Inv(s)
    ensures Inv(RunCorrected(s, trace))
    ensures RunCorrected(s, trace).availableFunds >= 0 && RunCorrected(s, trace).lockedFunds >= 0
    decreases |trace|
  {
    if trace != [] {
      NextCorrectedPreservesInv(s, trace[0]);
      ReachableCorrectedInv(NextCorrected(s, trace[0]), trace[1..]);
    }
  }

  /** In every state the written canister can reach, neither treasury bucket is negative,
      the locked funds are exactly those of the open proposals, and the buckets together
      are covered by the outstanding shares (so the quorum test never divides by a
      negative number). */
  lemma {:induction false} ReachableRegistryInv(s: DaoState, trace: seq<Action>)
    requires RegistryInv(s)
    ensures RegistryInv(Run(s, trace))
    ensures Run(s, trace).availableFunds >= 0 && Run(s, trace).lockedFunds >= 0
    ensures Run(s, trace).availableFunds + Run(s, trace).lockedFunds <= Run(s, trace).totalShares
    decreases |trace|
  {
    if trace != [] {
      NextPreservesRegistryInv(s, trace[0]);
      ReachableRegistryInv(Next(s, trace[0]), trace[1..]);
    }
  }

  /** In the written canister a self-transfer breaks conservation of shares in every
      state where the caller holds shares and moves a positive amount. */
  lemma SelfTransferBreaksShareInv(s: DaoState, who: Principal, amount: nat)
    requires ShareInv(s) && s.initialized
    requires who in s.shares && 0 < amount <= s.shares[who]
    ensures !ShareInv(Next(s, TransferCall(who, who, amount)))
  {
    SelfTransferInflates(s.shares, who, amount);
  }

  /** The broken state is reachable: install, join with 5, transfer 5 to oneself. */
  lemma SelfTransferReachable()
    ensures var s := Run(InitialState(), [InitCall("admin", 0, InitPayload(100, 10, 50)),
                                          JoinCall("a", 1, 5, true),
                                          TransferCall("a", "a", 5)]);
            s.totalShares == 5 && Get(s.shares, "a") == 10 && !ShareInv(s)
  {
    var s0 := InitialState();
    var s1 := Next(s0, InitCall("admin", 0, InitPayload(100, 10, 50)));
    var s2 := Next(s1, JoinCall("a", 1, 5, true));
    assert s2.shares == map["a" := 5];
    var s3 := Next(s2, TransferCall("a", "a", 5));
    assert s3.shares == map["a" := 10];
    EntryBelowSum(s3.shares, "a");
    assert Run(s0, [InitCall("admin", 0, InitPayload(100, 10, 50)), JoinCall("a", 1, 5, true),
                    TransferCall("a", "a", 5)]) == s3;
  }

  /** A worked example: quorum 50, two members joining with 100 each,
      a proposal for 50 voted by its author alone (exactly half of all shares), executed
      by the admin after the deadline: it passes, pays out 50 of the locked funds, and a
      second execution fails. */
  lemma HalfQuorumScenario()
    ensures var s := Run(InitialState(), [InitCall("admin", 0, InitPayload(1000, 100, 50)),
                                          JoinCall("a", 1, 100, true),
                                          JoinCall("b", 2, 100, true),
                                          CreateCall("a", 3, "grant", 50, "x"),
                                          VoteCall("a", 4, 0),
                                          ExecuteCall("admin", 103, 0, true)]);
            && s.proposals[0].ended && s.proposals[0].executed && s.proposals[0].votes == 100
            && s.totalShares == 200 && s.availableFunds == 150 && s.lockedFunds == 0
            && ExecuteProposal(s, "admin", 200, 0, true) == Err(AlreadyEnded)
  {
    var s0 := InitialState();
    var s1 := Next(s0, InitCall("admin", 0, InitPayload(1000, 100, 50)));
    var s2 := Next(s1, JoinCall("a", 1, 100, true));
    var s3 := Next(s2, JoinCall("b", 2, 100, true));
    var s4 := Next(s3, CreateCall("a", 3, "grant", 50, "x"));
    assert s4.proposals[0] == Proposal(0, "grant", 50, "x", 0, 103, false, false);
    var s5 := Next(s4, VoteCall("a", 4, 0));
    assert s5.proposals[0].votes == 100;
    var s6 := Next(s5, ExecuteCall("admin", 103, 0, true));
    assert s6.proposals[0].executed;
    assert Run(s0, [InitCall("admin", 0, InitPayload(1000, 100, 50)), JoinCall("a", 1, 100, true),
                    JoinCall("b", 2, 100, true), CreateCall("a", 3, "grant", 50, "x"),
                    VoteCall("a", 4, 0), ExecuteCall("admin", 103, 0, true)]) == s6;
  }

  /** A call that succeeds as a vote of `key`. */
  predicate CastsVote(s: DaoState, a: Action, key: VoteKey)
  {
    a.VoteCall? && (a.caller, a.id) == key && Apply(s, a).Ok?
  }

  /** How many calls of `trace`, run from `s`, are successful votes of `key`. */
  function VotesCast(s: DaoState, trace: seq<Action>, key: VoteKey): nat
    decreases |trace|
  {
    if trace == [] then 0
    else (if CastsVote(s, trace[0], key) then 1 else 0) + VotesCast(Next(s, trace[0]), trace[1..], key)
  }

  /** No call forgets a vote, and a successful vote records its pair. */
  lemma VotesAreKept(s: DaoState, a: Action, key: VoteKey)
    ensures s.voted <= Next(s, a).voted
    ensures CastsVote(s, a, key) ==> key !in s.voted && key in Next(s, a).voted
  {
  }

  /** Exactly-once voting: over any sequence of calls, a (voter, proposal) pair is
      counted at most once, and not at all if it had already voted. */
  lemma {:induction false} AtMostOneVote(s: DaoState, trace: seq<Action>, key: VoteKey)
    ensures VotesCast(s, trace, key) + (if key in s.voted then 1 else 0) <= 1
    decreases |trace|
  {
    if trace != [] {
      VotesAreKept(s, trace[0], key);
      AtMostOneVote(Next(s, trace[0]), trace[1..], key);
    }
  }

  /** A closed proposal is terminal: no call reopens it, changes its outcome or its amount. */
  lemma ClosedIsTerminal(s: DaoState, a: Action, id: int)
    requires RegistryInv(s)
    requires id in s.proposals && s.proposals[id].ended
    ensures id in Next(s, a).proposals
    ensures Next(s, a).proposals[id].ended
    ensures Next(s, a).proposals[id].executed == s.proposals[id].executed
    ensures Next(s, a).proposals[id].amount == s.proposals[id].amount
  {
  }

  /** The configuration is set once: after `init` no call changes it or clears the flag. */
  lemma ConfigIsSetOnce(s: DaoState, a: Action)
    requires s.initialized
    ensures Next(s, a).initialized && Next(s, a).config == s.config
  {
  }
}

=== FILE: legacy_dao.dfy ===
/** The older DAO canister (src/index.ts): the same share and treasury transitions as
    the canonical canister, with three differences.  There is no `initialized` flag and
    no call checks one; the contribution deadline is an absolute time taken from the
    payload instead of an offset from `now`; and `init` ends in a trap.  Before `init`
    the canister starts with every counter at zero, a contribution deadline of 0 and
    the canister itself as admin.

    Only `init`, `joinDAO`, `redeemShares` and `transferShares` exist in this variant,
    so its state has no proposal registry or vote set. */
module LegacyDao {
  import opened Results
  import opened MapSum
  import opened ShareLedger
  import Dao

  datatype LegacyState = LegacyState(
    config: Dao.Config,
    shares: Shares,
    totalShares: int,
    availableFunds: int,
    lockedFunds: int,
    nextProposalId: int)

  /** The state right after installation, before `init` has run. */
  function InitialState(self: Principal): (s: LegacyState)
    ensures s.config.contributionEnds == 0 && s.config.admin == self && s.shares == map[]
    ensures s.config.quorum == 0 && s.config.voteTime == 0
    ensures s.totalShares == 0 && s.availableFunds == 0 && s.lockedFunds == 0 && s.nextProposalId == 0
  {
    LegacyState(Dao.Config(0, 0, 0, self), map[], 0, 0, 0, 0)
  }

  /** `init` as written: after validating the quorum and assigning the configuration it
      calls `ic.trap("Initialization complete")`, which aborts the install and discards
      every assignment.  It never succeeds. */
  function InitAsWritten(s: LegacyState, caller: Principal, payload: Dao.InitPayload): (r: Result<LegacyState, Dao.DaoError>)
    ensures r.Err?
    ensures payload.quorum > 100 ==> r.error == Dao.QuorumOutOfRange
    ensures payload.quorum <= 100 ==> r.error == Dao.InitAborted
  {
    if payload.quorum > 100 then Err(Dao.QuorumOutOfRange)
    else Err(Dao.InitAborted)
  }

  /** `init` without the trailing trap: the quorum is validated, the deadline is stored
      as the absolute time given, the caller becomes admin and the counters are zeroed.
      As a `$init` hook it runs once, when the canister is installed. */
  function Init(s: LegacyState, caller: Principal, payload: Dao.InitPayload): (r: Result<LegacyState, Dao.DaoError>)
    ensures r.Ok? <==> payload.quorum <= 100
    ensures r.Err? ==> r.error == Dao.QuorumOutOfRange
    ensures r.Ok? ==> r.value.config.contributionEnds == payload.contributionTime
    ensures r.Ok? ==> r.value.config.quorum == payload.quorum && r.value.config.voteTime == payload.voteTime
    ensures r.Ok? ==> r.value.config.admin == caller
    ensures r.Ok? ==> r.value.totalShares == 0 && r.value.availableFunds == 0 && r.value.lockedFunds == 0
    ensures r.Ok? ==> r.value.nextProposalId == 0 && r.value.shares == s.shares
  {
    if payload.quorum > 100 then Err(Dao.QuorumOutOfRange)
    else
      Ok(s.(config := Dao.Config(payload.quorum, payload.voteTime, payload.contributionTime, caller),
            totalShares := 0,
            availableFunds := 0,
            lockedFunds := 0,
            nextProposalId := 0))
  }

  /** `joinDAO`: contribute `amount` before the deadline and receive as many shares. */
  function JoinDAO(s: LegacyState, caller: Principal, now: nat, amount: nat, paid: bool): (r: Result<LegacyState, Dao.DaoError>)
    ensures r.Ok? <==> now <= s.config.contributionEnds && amount > 0 && paid
    ensures now > s.config.contributionEnds ==> r == Err(Dao.ContributionClosed)
    ensures now <= s.config.contributionEnds && amount == 0 ==> r == Err(Dao.NonPositiveAmount)
    ensures r.Ok? ==> Get(r.value.shares, caller) == Get(s.shares, caller) + amount
    ensures r.Ok? ==> r.value.shares - {caller} == s.shares - {caller}
    ensures r.Ok? ==> Sum(r.value.shares) == Sum(s.shares) + amount
    ensures r.Ok? ==> r.value.totalShares == s.totalShares + amount
    ensures r.Ok? ==> r.value.availableFunds == s.availableFunds + amount
    ensures r.Ok? ==> r.value == s.(shares := r.value.shares, totalShares := r.value.totalShares,
                                    availableFunds := r.value.availableFunds)
  {
    if now > s.config.contributionEnds then Err(Dao.ContributionClosed)
    else if amount == 0 then Err(Dao.NonPositiveAmount)
    else if !paid then Err(Dao.ExternalCallFailed)
    else
      Ok(s.(shares := Credit(s.shares, caller, amount),
            totalShares := s.totalShares + amount,
            availableFunds := s.availableFunds + amount))
  }

  /** `redeemShares`: give back `amount` shares and have `amount` sent to `addressTo`
      (the destination only matters to the external transfer). */
  function RedeemShares(s: LegacyState, caller: Principal, amount: nat, addressTo: string, paid: bool)
    : (r: Result<LegacyState, Dao.DaoError>)
    ensures r.Ok? <==> amount <= s.availableFunds && caller in s.shares && amount <= s.shares[caller] && paid
    ensures s.availableFunds < amount ==> r == Err(Dao.InsufficientFunds)
    ensures amount <= s.availableFunds && caller !in s.shares ==> r == Err(Dao.NoShares)
    ensures amount <= s.availableFunds && caller in s.shares && s.shares[caller] < amount
            ==> r == Err(Dao.InsufficientShares)
    ensures r.Ok? ==> Get(r.value.shares, caller) + amount == s.shares[caller]
    ensures r.Ok? ==> (caller in r.value.shares <==> Get(r.value.shares, caller) > 0)
    ensures r.Ok? ==> r.value.shares - {caller} == s.shares - {caller}
    ensures r.Ok? ==> Sum(r.value.shares) + amount == Sum(s.shares)
    ensures r.Ok? ==> r.value.totalShares + amount == s.totalShares
    ensures r.Ok? ==> r.value.availableFunds + amount == s.availableFunds
    ensures r.Ok? ==> r.value == s.(shares := r.value.shares, totalShares := r.value.totalShares,
                                    availableFunds := r.value.availableFunds)
  {
    if s.availableFunds < amount then Err(Dao.InsufficientFunds)
    else if caller !in s.shares then Err(Dao.NoShares)
    else if s.shares[caller] < amount then Err(Dao.InsufficientShares)
    else if !paid then Err(Dao.ExternalCallFailed)
    else
      Ok(s.(shares := Debit(s.shares, caller, amount),
            totalShares := s.totalShares - amount,
            availableFunds := s.availableFunds - amount))
  }

  /** `transferShares`: move `amount` of the caller's shares to `to`, as written. */
  function TransferShares(s: LegacyState, caller: Principal, to: Principal, amount: nat): (r: Result<LegacyState, Dao.DaoError>)
    ensures r.Ok? <==> caller in s.shares && amount <= s.shares[caller]
    ensures caller !in s.shares ==> r == Err(Dao.NoShares)
    ensures caller in s.shares && s.shares[caller] < amount ==> r == Err(Dao.InsufficientShares)
    ensures r.Ok? && caller != to ==> Sum(r.value.shares) == Sum(s.shares)
    ensures r.Ok? && caller != to ==> Get(r.value.shares, caller) + amount == s.shares[caller]
    ensures r.Ok? && caller != to ==> Get(r.value.shares, to) == Get(s.shares, to) + amount
    ensures r.Ok? && caller != to ==> (caller in r.value.shares <==> amount < s.shares[caller])
    ensures r.Ok? ==> to in r.value.shares
    ensures r.Ok? ==> r.value.shares - {caller, to} == s.shares - {caller, to}
    ensures r.Ok? ==> r.value == s.(shares := r.value.shares)
  {
    if caller !in s.shares then Err(Dao.NoShares)
    else if s.shares[caller] < amount then Err(Dao.InsufficientShares)
    else Ok(s.(shares := Transfer(s.shares, caller, to, amount)))
  }

  /** The canonical state seen through the fields this variant has. */
  function Project(d: Dao.DaoState): LegacyState
  {
    LegacyState(d.config, d.shares, d.totalShares, d.availableFunds, d.lockedFunds, d.nextProposalId)
  }

  function ProjectResult(r: Result<Dao.DaoState, Dao.DaoError>): Result<LegacyState, Dao.DaoError>
  {
    match r
    case Ok(d) => Ok(Project(d))
    case Err(e) => Err(e)
  }

  /** Once the canonical canister is initialized, its `joinDAO`, `redeemShares` and
      `transferShares` behave exactly like this variant's, error for error. */
  lemma SameTransitionsOnceInitialized(d: Dao.DaoState, caller: Principal, to: Principal, now: nat,
                                       amount: nat, addressTo: string, paid: bool)
    requires d.initialized
    ensures ProjectResult(Dao.JoinDAO(d, caller, now, amount, paid)) == JoinDAO(Project(d), caller, now, amount, paid)
    ensures ProjectResult(Dao.RedeemShares(d, caller, amount, paid))
            == RedeemShares(Project(d), caller, amount, addressTo, paid)
    ensures ProjectResult(Dao.TransferShares(d, caller, to, amount)) == TransferShares(Project(d), caller, to, amount)
  {
  }

  /** The written `init` fails on every payload, so the install is rejected and no later
      call reaches this code; even the initial globals would refuse every join at a
      positive time.  The repaired `init` opens the window until the deadline it was given. */
  lemma InitTrapClosesContribution(self: Principal, caller: Principal, payload: Dao.InitPayload,
                                   member: Principal, now: nat, amount: nat)
    requires payload.quorum <= 100
    requires 0 < now <= payload.contributionTime && amount > 0
    ensures InitAsWritten(InitialState(self), caller, payload).Err?
    ensures JoinDAO(InitialState(self), member, now, amount, true) == Err(Dao.ContributionClosed)
    ensures JoinDAO(Init(InitialState(self), caller, payload).value, member, now, amount, true).Ok?
  {
  }

  /** The transitions conserve shares: joins and redeems move `totalShares` and the
      balance sum together, and a transfer between distinct principals moves neither. */
  lemma ShareSumKept(s: LegacyState, caller: Principal, to: Principal, now: nat, amount: nat,
                     addressTo: string, paid: bool)
    requires s.totalShares == Sum(s.shares)
    ensures var r := JoinDAO(s, caller, now, amount, paid); r.Ok? ==> r.value.totalShares == Sum(r.value.shares)
    ensures var r := RedeemShares(s, caller, amount, addressTo, paid); r.Ok? ==> r.value.totalShares == Sum(r.value.shares)
    ensures var r := TransferShares(s, caller, to, amount); r.Ok? && caller != to ==> r.value.totalShares == Sum(r.value.shares)
  {
  }
}

=== FILE: map_sum.dfy ===
/** The sum of the values of a finite map, and how it reacts to updates and removals.

    Share balances, token balances and the amounts locked by open proposals are all
    maps into `nat`; the conservation properties of the model are statements about
    `Sum` of such a map.
 */
module MapSum {

  /** The value stored under `k`, or 0 when `m` has no entry for `k`. */
  function Get<K>(m: map<K, nat>, k: K): nat
  {
    if k in m then m[k] else 0
  }

  ghost function Sum<K>(m: map<K, nat>): nat
    decreases |m|
  {
    if m.Keys == {} then 0
    else
      var k :| k in m.Keys;
      m[k] + Sum(m - {k})
  }

  /** Taking out any one entry splits the sum, whichever key `Sum` happened to pick first. */
  lemma {:induction false} SumRemove<K>(m: map<K, nat>, k: K)
    requires k in m
    ensures Sum(m) == m[k] + Sum(m - {k})
    decreases |m|
  {
    var j :| j in m.Keys && Sum(m) == m[j] + Sum(m - {j});
    if j != k {
      var mj := m - {j};
      var mk := m - {k};
      assert k in mj && j in mk;
      SumRemove(mj, k);
      SumRemove(mk, j);
      assert mj - {k} == mk - {j};
    }
  }

  /** Writing `v` under `k` changes the sum by exactly the difference to the old entry. */
  lemma SumUpdate<K>(m: map<K, nat>, k: K, v: nat)
    ensures Sum(m[k := v]) + Get(m, k) == Sum(m) + v
  {
    var m' := m[k := v];
    SumRemove(m', k);
    assert m' - {k} == m - {k};
    if k in m {
      SumRemove(m, k);
    } else {
      assert m - {k} == m;
    }
  }

  /** Removing `k` lowers the sum by exactly its entry (0 when absent). */
  lemma SumDelete<K>(m: map<K, nat>, k: K)
    ensures Sum(m - {k}) + Get(m, k) == Sum(m)
  {
    if k in m {
      SumRemove(m, k);
    } else {
      assert m - {k} == m;
    }
  }

  /** A single entry is at most the whole sum. */
  lemma EntryBelowSum<K>(m: map<K, nat>, k: K)
    ensures Get(m, k) <= Sum(m)
  {
  }

  lemma SumSingleton<K>(k: K, v: nat)
    ensures Sum(map[k := v]) == v
  {
    var m := map[k := v];
    SumRemove(m, k);
    assert (m - {k}).Keys == {};
  }
}

=== FILE: results.dfy ===
/** Success/failure results shared by the DAO and token models.

    Both `ic.trap` and an explicit `Result.Err` return are modelled as `Err`: the
    caller sees a failure and the state it passed in stays the state of record.  A
    trap rolls back only the writes made since the message's last `await`; every
    modelled call that can trap after an `await` writes nothing before it, so for
    these calls that is every write.
 */
module Results {

  datatype Result<+T, +E> = Ok(value: T) | Err(error: E)
}

=== FILE: share_ledger.dfy ===
/** The share ledger: investor principal -> share balance.

    Both DAO variants keep this ledger in a stable map and manipulate it the same
    way: a credit adds to an entry (creating it when absent), a debit subtracts and
    deletes the entry when it reaches exactly zero, and a transfer does both.  The
    callers validate the debit side (entry present, enough shares) before calling
    these helpers, which is why the helpers state it as a precondition.
 */
module ShareLedger {
  import opened MapSum

  type Principal = string

  type Shares = map<Principal, nat>

  /** Credit `amount` shares to `who`: the entry grows by `amount` or is created. */
  function Credit(m: Shares, who: Principal, amount: nat): (r: Shares)
    ensures who in r && r[who] == Get(m, who) + amount
    ensures r - {who} == m - {who}
    ensures Sum(r) == Sum(m) + amount
  {
    SumUpdate(m, who, Get(m, who) + amount);
    m[who := Get(m, who) + amount]
  }

  /** Debit `amount` shares from `who`, removing the entry when it reaches zero. */
  function Debit(m: Shares, who: Principal, amount: nat): (r: Shares)
    requires who in m && amount <= m[who]
    ensures Get(r, who) == m[who] - amount
    ensures who in r <==> amount < m[who]
    ensures r - {who} == m - {who}
    ensures Sum(r) + amount == Sum(m)
  {
    var left := m[who] - amount;
    if left == 0 then
      SumDelete(m, who);
      m - {who}
    else
      SumUpdate(m, who, left);
      m[who := left]
  }

  /** `transferShares` as written: the recipient's new balance is computed from the
      ledger BEFORE the sender is debited, and written last.  When `to == from` the
      debit is therefore overwritten by the stale credit. */
  function Transfer(m: Shares, from: Principal, to: Principal, amount: nat): (r: Shares)
    requires from in m && amount <= m[from]
    ensures to in r
    ensures from != to ==> Get(r, from) == m[from] - amount && r[to] == Get(m, to) + amount
    ensures from != to ==> (from in r <==> amount < m[from])
    ensures from == to ==> r[to] == m[from] + amount
    ensures from != to ==> Sum(r) == Sum(m)
    ensures r - {from, to} == m - {from, to}
  {
    var updatedTo := Get(m, to) + amount;
    var updatedFrom := m[from] - amount;
    var afterDebit := if updatedFrom == 0 then m - {from} else m[from := updatedFrom];
    SumDelete(m, from);
    SumUpdate(m, from, updatedFrom);
    SumUpdate(afterDebit, to, updatedTo);
    afterDebit[to := updatedTo]
  }

  /** A transfer that is a debit followed by a credit; a transfer to oneself changes nothing. */
  function TransferCorrected(m: Shares, from: Principal, to: Principal, amount: nat): (r: Shares)
    requires from in m && amount <= m[from]
    ensures Sum(r) == Sum(m)
    ensures from == to ==> r == m
    ensures from != to ==> Get(r, from) == m[from] - amount && to in r && r[to] == Get(m, to) + amount
    ensures r - {from, to} == m - {from, to}
  {
    if from == to then m
    else
      var debited := Debit(m, from, amount);
      assert Get(debited, to) == Get(m, to) by {
        assert to in debited <==> to in m;
      }
      Credit(debited, to, amount)
  }

  /** Between distinct principals the written transfer is the corrected one, so it conserves shares. */
  lemma TransferDistinctConserves(m: Shares, from: Principal, to: Principal, amount: nat)
    requires from in m && amount <= m[from]
    requires from != to
    ensures Transfer(m, from, to, amount) == TransferCorrected(m, from, to, amount)
    ensures Sum(Transfer(m, from, to, amount)) == Sum(m)
  {
  }

  /** A transfer to oneself adds `amount` to the caller's balance out of nothing. */
  lemma SelfTransferInflates(m: Shares, who: Principal, amount: nat)
    requires who in m && amount <= m[who]
    ensures Transfer(m, who, who, amount)[who] == m[who] + amount
    ensures Sum(Transfer(m, who, who, amount)) == Sum(m) + amount
  {
    var left := m[who] - amount;
    var afterDebit := if left == 0 then m - {who} else m[who := left];
    assert Transfer(m, who, who, amount) == afterDebit[who := m[who] + amount];
    SumDelete(m, who);
    SumUpdate(m, who, left);
    SumUpdate(afterDebit, who, m[who] + amount);
  }

  /** A zero-amount transfer to a principal without shares creates a zero entry for it. */
  lemma ZeroTransferCreatesEntry(m: Shares, from: Principal, to: Principal)
    requires from in m && to !in m
    ensures to in Transfer(m, from, to, 0) && Transfer(m, from, to, 0)[to] == 0
  {
  }

  /** A debit of what was just credited restores the ledger, unless the entry was a
      zero entry, which the debit deletes. */
  lemma DebitUndoesCredit(m: Shares, who: Principal, amount: nat)
    requires who !in m || m[who] > 0
    ensures Debit(Credit(m, who, amount), who, amount) == m
  {
  }

  /** Sending shares to another principal and back restores the ledger, unless the
      recipient held a zero entry, which the return trip deletes. */
  lemma TransferBackRestores(m: Shares, from: Principal, to: Principal, amount: nat)
    requires from in m && amount <= m[from] && from != to
    requires to !in m || m[to] > 0
    ensures Transfer(Transfer(m, from, to, amount), to, from, amount) == m
  {
  }
}

=== FILE: token_ledger.dfy ===
/** The token canister (src/tokenCanister/index.ts): a table of accounts with balances,
    a name, a ticker and a total supply.  `initializeSupply` hands the whole supply to
    one address; `transfer` moves balance between addresses.  The canister checks no
    caller: any principal can call either update. */
module TokenLedger {
  import opened Results
  import opened MapSum

  type Address = string

  datatype Account = Account(address: Address, balance: nat)

  datatype TokenState = TokenState(accounts: map<Address, Account>, name: string, ticker: string, totalSupply: nat)

  datatype TokenError = InsufficientAmount

  /** The state the canister starts with: no accounts, empty name and ticker, no supply. */
  function InitialState(): (s: TokenState)
    ensures s.accounts == map[] && s.totalSupply == 0
  {
    TokenState(map[], "", "", 0)
  }

  /** The balance of every account, as a map from address to balance. */
  function Balances(accounts: map<Address, Account>): map<Address, nat>
  {
    map a | a in accounts :: accounts[a].balance
  }

  /** The supply is exactly what the accounts hold, and each account is filed under its own address. */
  ghost predicate Conserved(s: TokenState)
  {
    && Sum(Balances(s.accounts)) == s.totalSupply
    && forall a :: a in s.accounts ==> s.accounts[a].address == a
  }

  lemma BalancesUpdate(accounts: map<Address, Account>, a: Address, acc: Account)
    ensures Balances(accounts[a := acc]) == Balances(accounts)[a := acc.balance]
  {
  }

  /** `initializeSupply`: replace every account by a single one, `originalAddress`,
      holding the whole supply, and record name, ticker and supply. */
  function InitializeSupply(s: TokenState, name: string, originalAddress: Address, ticker: string,
                            totalSupply: nat): (r: TokenState)
    ensures r.accounts.Keys == {originalAddress}
    ensures r.accounts[originalAddress] == Account(originalAddress, totalSupply)
    ensures r.name == name && r.ticker == ticker && r.totalSupply == totalSupply
    ensures Conserved(r)
  {
    var accounts := map[originalAddress := Account(originalAddress, totalSupply)];
    assert Balances(accounts) == map[originalAddress := totalSupply];
    SumSingleton(originalAddress, totalSupply);
    s.(accounts := accounts, name := name, ticker := ticker, totalSupply := totalSupply)
  }

  /** `balance`: the balance of an address, 0 when it has no account. */
  function Balance(s: TokenState, address: Address): (r: nat)
    ensures address in s.accounts ==> r == s.accounts[address].balance
    ensures address !in s.accounts ==> r == 0
    ensures r == Get(Balances(s.accounts), address)
  {
    if address in s.accounts then s.accounts[address].balance else 0
  }

  /** `totalSupply`: the supply recorded by the last `initializeSupply`; while the
      ledger is conserved it is the sum of all balances. */
  function TotalSupply(s: TokenState): (r: nat)
    ensures Conserved(s) ==> r == Sum(Balances(s.accounts))
  {
    s.totalSupply
  }

  /** Make sure `a` has an account, creating an empty one when it has none. */
  function EnsureAccount(accounts: map<Address, Account>, a: Address): (r: map<Address, Account>)
    ensures a in r && (a in accounts ==> r[a] == accounts[a]) && (a !in accounts ==> r[a] == Account(a, 0))
    ensures r - {a} == accounts - {a}
  {
    if a in accounts then accounts else accounts[a := Account(a, 0)]
  }

  /** Set the balance of the existing account `a` to `v`, keeping its address. */
  function SetBalance(accounts: map<Address, Account>, a: Address, v: nat): (r: map<Address, Account>)
    requires a in accounts
    ensures a in r && r[a] == accounts[a].(balance := v)
    ensures r - {a} == accounts - {a}
  {
    accounts[a := accounts[a].(balance := v)]
  }

  /** Creating an empty account adds nothing to the sum of balances. */
  lemma EnsureAccountKeepsSum(accounts: map<Address, Account>, a: Address)
    ensures Sum(Balances(EnsureAccount(accounts, a))) == Sum(Balances(accounts))
    ensures (forall x :: x in accounts ==> accounts[x].address == x) ==>
              forall x :: x in EnsureAccount(accounts, a) ==> EnsureAccount(accounts, a)[x].address == x
  {
    if a !in accounts {
      BalancesUpdate(accounts, a, Account(a, 0));
      SumUpdate(Balances(accounts), a, 0);
    }
  }

  /** Debit `from` and then credit `to` by `amount`, on a table that already holds both
      accounts.  When the two coincide the credit reads the debited balance, so the
      account ends where it started. */
  function MoveBalance(accounts: map<Address, Account>, from: Address, to: Address, amount: nat): (r: map<Address, Account>)
    requires from in accounts && to in accounts && amount <= accounts[from].balance
    ensures from in r && to in r
    ensures from != to ==> r[from] == accounts[from].(balance := accounts[from].balance - amount)
    ensures from != to ==> r[to] == accounts[to].(balance := accounts[to].balance + amount)
    ensures from == to ==> r[from] == accounts[from]
    ensures r - {from, to} == accounts - {from, to}
  {
    var debited := SetBalance(accounts, from, accounts[from].balance - amount);
    var credited := SetBalance(debited, to, debited[to].balance + amount);
    assert from != to ==> debited[to] == accounts[to] by {
      if from != to {
        assert to in debited - {from};
      }
    }
    assert credited - {from, to} == accounts - {from, to} by {
      assert credited - {from, to} == (credited - {to}) - {from};
      assert debited - {from, to} == (debited - {from}) - {to};
    }
    credited
  }

  /** Moving balance between two accounts keeps the sum of balances, whether or not
      `from` and `to` coincide. */
  lemma MoveKeepsSum(accounts: map<Address, Account>, from: Address, to: Address, amount: nat)
    requires from in accounts && to in accounts && amount <= accounts[from].balance
    ensures Sum(Balances(MoveBalance(accounts, from, to, amount))) == Sum(Balances(accounts))
  {
    var debited := SetBalance(accounts, from, accounts[from].balance - amount);
    var moved := SetBalance(debited, to, debited[to].balance + amount);
    assert MoveBalance(accounts, from, to, amount) == moved;
    var before, middle, after := Balances(accounts), Balances(debited), Balances(moved);
    BalancesUpdate(accounts, from, debited[from]);
    BalancesUpdate(debited, to, moved[to]);
    SumUpdate(before, from, middle[from]);
    SumUpdate(middle, to, after[to]);
  }

  /** The account table `transfer` works on: `to`, then `from`, given an empty account
      when missing. */
  function OpenAccounts(accounts: map<Address, Account>, from: Address, to: Address): (r: map<Address, Account>)
    ensures from in r && to in r
    ensures r[from].balance == Get(Balances(accounts), from) && r[to].balance == Get(Balances(accounts), to)
    ensures r - {from, to} == accounts - {from, to}
  {
    var withTo := EnsureAccount(accounts, to);
    var withFrom := EnsureAccount(withTo, from);
    assert withFrom - {from, to} == accounts - {from, to} by {
      assert withFrom - {from, to} == (withFrom - {from}) - {to};
    }
    assert from != to ==> withFrom[to] == withTo[to] by {
      if from != to {
        assert to in withFrom - {from};
      }
    }
    withFrom
  }

  /** `transfer`: missing accounts for `to` and `from` are first created with balance 0;
      then `from` is debited and `to` credited by `amount`.  A balance below `amount`
      traps, which also discards the accounts just created. */
  function Transfer(s: TokenState, from: Address, to: Address, amount: nat): (r: Result<TokenState, TokenError>)
    ensures r.Ok? <==> Balance(s, from) >= amount
    ensures r.Err? ==> r.error == InsufficientAmount
    ensures r.Ok? ==> from in r.value.accounts && to in r.value.accounts
    ensures r.Ok? && from != to ==> Balance(r.value, from) + amount == Balance(s, from)
    ensures r.Ok? && from != to ==> Balance(r.value, to) == Balance(s, to) + amount
    ensures r.Ok? && from == to ==> Balance(r.value, from) == Balance(s, from)
    ensures r.Ok? ==> r.value.accounts - {from, to} == s.accounts - {from, to}
    ensures r.Ok? ==> r.value.totalSupply == s.totalSupply && r.value.name == s.name && r.value.ticker == s.ticker
  {
    var withFrom := OpenAccounts(s.accounts, from, to);
    if withFrom[from].balance < amount then Err(InsufficientAmount)
    else Ok(s.(accounts := MoveBalance(withFrom, from, to, amount)))
  }

  /** A transfer that succeeds neither creates nor destroys tokens: the balances sum to
      what they summed to before, so a conserved ledger stays conserved. */
  lemma TransferConservesSupply(s: TokenState, from: Address, to: Address, amount: nat)
    requires Transfer(s, from, to, amount).Ok?
    ensures Sum(Balances(Transfer(s, from, to, amount).value.accounts)) == Sum(Balances(s.accounts))
    ensures Conserved(s) ==> Conserved(Transfer(s, from, to, amount).value)
  {
    var withTo := EnsureAccount(s.accounts, to);
    EnsureAccountKeepsSum(s.accounts, to);
    EnsureAccountKeepsSum(withTo, from);
    MoveKeepsSum(OpenAccounts(s.accounts, from, to), from, to, amount);
  }

  /** Sending `amount` from one address to another and back restores every balance. */
  lemma TransferBackRestoresBalances(s: TokenState, from: Address, to: Address, amount: nat, who: Address)
    requires Transfer(s, from, to, amount).Ok?
    ensures Transfer(Transfer(s, from, to, amount).value, to, from, amount).Ok?
    ensures Balance(Transfer(Transfer(s, from, to, amount).value, to, from, amount).value, who) == Balance(s, who)
  {
  }

  /** The arguments of one `transfer` call. */
  datatype Move = Move(from: Address, to: Address, amount: nat)

  /** Apply a sequence of `transfer` calls in order; a call that traps leaves the state as it was. */
  function ApplyTransfers(s: TokenState, calls: seq<Move>): TokenState
    decreases |calls|
  {
    if calls == [] then s
    else
      var c := calls[0];
      var next := match Transfer(s, c.from, c.to, c.amount)
        case Ok(t) => t
        case Err(_) => s;
      ApplyTransfers(next, calls[1..])
  }

  /** After `initializeSupply`, the balances sum to the total supply, and every later
      sequence of transfers keeps it that way. */
  lemma {:induction false} SupplyConservedAfterInitialization(s: TokenState, name: string, originalAddress: Address,
                                                              ticker: string, supply: nat, calls: seq<Move>)
    ensures Conserved(ApplyTransfers(InitializeSupply(s, name, originalAddress, ticker, supply), calls))
    ensures ApplyTransfers(InitializeSupply(s, name, originalAddress, ticker, supply), calls).totalSupply == supply
  {
    TransfersKeepConserved(InitializeSupply(s, name, originalAddress, ticker, supply), calls);
  }

  lemma {:induction false} TransfersKeepConserved(s: TokenState, calls: seq<Move>)
    requires Conserved(s)
    ensures Conserved(ApplyTransfers(s, calls))
    ensures ApplyTransfers(s, calls).totalSupply == s.totalSupply
    decreases |calls|
  {
    if calls != [] {
      var c := calls[0];
      var next := match Transfer(s, c.from, c.to, c.amount)
        case Ok(t) => t
        case Err(_) => s;
      if Transfer(s, c.from, c.to, c.amount).Ok? {
        TransferConservesSupply(s, c.from, c.to, c.amount);
      }
      TransfersKeepConserved(next, calls[1..]);
    }
  }
}
